=== FILE: README.md ===
# Slippery pole: a verified model of the game's simulation

The game is a single-screen pole-climbing arcade game. A climber at the foot of a pole climbs while the up key is held. Each tick has a small chance of a slip, which asks for one of two balance keys (A or D). An unanswered slip slides the climber down, then makes them fall faster, and ends by itself. Coconuts spawn at the top of the screen and fall. One that lands inside the climber's box knocks the climber down. The game is won by passing the top of the pole and lost by sliding past its foot. R restarts a finished game.

This project models that simulation core in Dafny:

- the game constants;
- the start of a new game;
- the key-down handling (balance and restart);
- the per-tick update, phase by phase: climb, slip onset, slip drift, coconut spawn, the coconut loop, the clamp that decides win or loss, and the score;
- frames and whole sessions, as in the main loop.

It then proves properties of that model.

Modules:

- `Config`: the constants, including the pole geometry a new game fixes.
- `Outcomes`: `Option` and `Result`.
- `World`:
  - the game record;
  - the random draws of one tick, as a value;
  - the new-game state and the score.
- `Coconuts`:
  - the spawn timer;
  - the fall of every coconut;
  - the coconut loop, with its collision test and removal.
- `Simulation`:
  - the tick's phases, and the tick itself;
  - key handling, frames and session replay.
- `Invariants`:
  - the invariant every reachable state satisfies, and proofs that the new-game state, key presses, ticks and frames keep it;
  - `Play`, a session runner that keeps the invariant as a loop invariant.
- `Scenarios`: derived multi-tick facts:
  - a clean climb wins on tick 211;
  - a slip on the first tick of a new game, with up not held, loses;
  - an unanswered slip that starts from a zero timer, with no coconuts around, ends by itself on its 91st tick, 215 pixels lower (213 when up was held as it began);
  - a slip timer left at 90 by a balance key press makes the next slip end on the tick it starts.

Randomness is a parameter. Each tick receives a `Draws` value that holds every draw the tick can make:

- the climb-sound sample;
- the slip roll;
- the balance key a new slip asks for;
- the fall-sound sample;
- the spawn roll;
- the spawn x.

Each roll is a real in [0, 1) and is compared with the game's thresholds: 0.01, 0.5, 0.05 and 0.1.

The held up key and the queued key-down events are parameters too. Sounds are modelled as a list of cues the tick asks for.

Behaviour of the game's code that is easy to misread:

- The score truncates toward zero.
- The highest score is 84. At the top of the pole the climber has risen 420 of the 500 pixels of the pole height. See `World.ScoreRange`.
- The score is not strictly monotone in the height; it is flat over runs of pixels. See `World.ScoreNotStrict`.
- A clean climb from the start wins on tick 211, with score 84. See `Scenarios.CleanWin`.
- Collision and off-screen removal are not exclusive in the code. A coconut that collides is removed, and then the off-screen test still runs on it. If it is also off the screen, the second removal raises an error. The model turns this into `Err(RemovedTwice)`. `Invariants.StepInv` proves that it cannot happen from any reachable state.
- The slip timer is not reset when a balance key ends a slip. The next slip can therefore start with the timer already advanced. See `Simulation.KeyDown` and `Scenarios.LeftoverTimerEndsSlip`.

The score formula divides in double precision before multiplying by 100. At three climbed heights (145, 285 and 290 pixels) the product lands just below a whole number. For example, 290 / 500 × 100 evaluates to 57.99999999999999. Truncation then gives one point less than the exact quotient would. `World.ScoreOf` lists those three heights explicitly (`World.RoundsDown`), so the model's score agrees with the program's score everywhere on the pole.

The coconut loop removes by position, as if building the surviving list. The game removes by value (the first equal coordinate pair). The two agree whenever no two live coconuts have equal coordinates. The invariant guarantees this: live coconuts are at least one spawn period of fall (180 pixels) apart vertically (`Coconuts.Spaced`).

## Model

| member | source | states |
|---|---|---|
| World.TruncDiv | slippery_pole_game.py:283 | the quotient truncates toward zero: it brackets the exact quotient from below for non-negative numerators and from above for negative ones |
| World.Reset | slippery_pole_game.py:151-166 | a new game starts at the lowest position on the pole with score 0, not slipping, no key asked for, no coconuts, timers at 0, neither won nor lost |
| World.ScoreOf | slippery_pole_game.py:283 | the score of a climber on or below the pole's top is never above the exact percentage of the pole height climbed, and less than two points below it: truncation costs less than one point, and the double rounding costs one more at the three heights `World.RoundsDown` lists (y = 180 is shown by `World.ScoreNotStrict`) |
| World.ScoreRange | slippery_pole_game.py:283 | on the pole the score lies between 0 and 84; it is 84 exactly at the top of the pole and 0 exactly in the lowest five pixels |
| World.ScoreMonotone | slippery_pole_game.py:283 | a higher climber never has a lower score |
| World.ScoreNotStrict | slippery_pole_game.py:283 | the score is flat between neighbouring pixels, at 470/469 and at 180/181; at y = 180 it is 57 although the exact percentage is 58; the top of the pole scores 84 |
| Coconuts.Spawn | slippery_pole_game.py:238-244 | before the period has elapsed the timer advances by one and the list is unchanged; once it elapses the timer restarts at 0, and a coconut is appended at the top of the screen at the drawn x exactly when the roll is under one half, the old list kept as a prefix; the timer stays within one spawn period |
| Coconuts.Dropped | slippery_pole_game.py:247-248 | every coconut falls by the coconut speed, in the same order, and keeps its x |
| Coconuts.Sweep | slippery_pole_game.py:247-263 | after the loop the climber has been pushed down by the hit penalty once per hit, and hits plus survivors never exceed the coconuts that entered the loop |
| Coconuts.SweepSurvivors | slippery_pole_game.py:247-263 | survivors keep their order and are a subsequence of the fallen coconuts; no survivor is off the screen; every on-screen coconut outside the climber's column survives; the loop fails only on a coconut in the column that is also off the screen |
| Coconuts.RemainingMembers | slippery_pole_game.py:250-263 | the reference filter keeps exactly the coconuts that are outside the climber's box and still on the screen |
| Coconuts.SweepClear | slippery_pole_game.py:247-263 | when no fallen coconut is in the climber's box, the loop succeeds, equals the reference filter, and leaves the climber where it was |
| Coconuts.SpacedAppend | slippery_pole_game.py:242-244 | appending a fresh coconut keeps the list spaced when all others are at least one spawn period of fall lower |
| Coconuts.SpacedBelowHit | slippery_pole_game.py:251-254 | in a spaced list, when the oldest coconut hits, no later coconut is in the box, either at the old y or at the y after the hit penalty |
| Coconuts.SweepHitFirst | slippery_pole_game.py:251-254 | in a spaced list, a hit by the oldest coconut is the only hit; the survivors are the reference filter at the original y, and the climber falls by one hit penalty |
| Coconuts.SweepSpaced | slippery_pole_game.py:247-263 | in a spaced list, with the climber no lower than the screen allows, the loop never fails; its survivors are the reference filter at the y the loop started with; there is at most one hit, and there is one exactly when some fallen coconut lies in the climber's box |
| Simulation.Climb | slippery_pole_game.py:197-199 | holding up moves a climber who is not slipping up by the climb speed; nothing else changes |
| Simulation.Onset | slippery_pole_game.py:208-211 | a climber who is not slipping starts slipping exactly when the roll is under 0.01, and is asked for the drawn key; otherwise (already slipping, or a failed roll) the state is unchanged; the slip timer is untouched |
| Simulation.Drift | slippery_pole_game.py:218-236 | while slipping: the timer advances, the climber slides one pixel plus the fall speed once past 60 ticks, and past 90 ticks the slip ends with the timer back at 0 and no key asked for; otherwise the state is unchanged |
| Simulation.Move | slippery_pole_game.py:197-236 | the climb and slip phases together move the climber by the climb, slide and fall contributions; the slip timer, the slip flag and the key asked for follow the slip rules; nothing else changes |
| Simulation.MoveCues | slippery_pole_game.py:200-230 | the climb sound is asked for exactly when climbing and the draw is under 0.05; the slip sound exactly when a slip starts; the fall sound exactly when falling and the draw is under 0.1; each sound at most once per tick, and never the hit or win sound |
| Simulation.Physics | slippery_pole_game.py:191-263 | before the clamp, the climber has moved by the climb, slip and hit contributions; the slip fields are those of the slip phases; the spawn timer is the one the spawn phase leaves, and stays in range; the coconut list and the hit count are what the coconut loop makes of the spawned list at the height the slip phases reached, and the phase fails exactly when that loop does; the list never grows by more than the one spawned coconut less the hits; the hit sound is asked for once per hit; score and outcome flags are untouched |
| Simulation.Settle | slippery_pole_game.py:269-283 | above the top the climber is put at the top and wins; below the lowest position it is put there and loses; a climber already on the pole is not moved; the score is that of the resulting height |
| Simulation.Step | slippery_pole_game.py:191-283 | a finished game is left as it is; otherwise the tick fails only if the coconut loop does; the climber ends on the pole; the game is won exactly when the motion passed the top, and then the climber is at the top, and lost exactly when it passed the lowest position, and then the climber is at the lowest position, never both; a climber the motion left on the pole stays where it moved; the score matches the height; the win sound is asked for exactly on a win; the slip fields, the coconut list and the spawn timer are those the motion phases left |
| Simulation.KeyDown | slippery_pole_game.py:174-189 | in a finished game only R acts, and it starts a new game; in a running game the requested balance key ends a slip, clears the key and asks for the slip sound, without touching the timer; any other key changes nothing |
| Simulation.HandleEvents | slippery_pole_game.py:168-189 | a finished game without R among the events, and a running game without A or D among them, come through the events unchanged and silent |
| Simulation.Frame | slippery_pole_game.py:338-341 | a finished game with no R pressed is left as it is by a whole frame, silently |
| Simulation.Replay | slippery_pole_game.py:338-343 | a finished game goes through any number of frames in which R is not pressed exactly as it is, and the session succeeds |
| Simulation.ReplayAppend | slippery_pole_game.py:338-343 | replaying two sessions back to back equals replaying the first and then the second from the state it ended in, and a fault in the first ends both |
| Invariants.ResetInv | slippery_pole_game.py:151-166 | the new-game state satisfies the game invariant |
| Invariants.SpawnPhase | slippery_pole_game.py:238-244 | the spawn phase keeps the coconut list spaced, and every coconut is as low as the restarted or advanced spawn timer requires |
| Invariants.DroppedFallen | slippery_pole_game.py:247-248 | one tick of falling adds one tick of fall to every coconut's lower bound |
| Invariants.CoconutPhase | slippery_pole_game.py:238-263 | with well-formed coconuts and the climber no lower than the screen allows, spawn followed by the loop never fails and leaves well-formed coconuts for the new spawn timer |
| Invariants.StepInv | slippery_pole_game.py:191-283 | from a reachable state a tick never fails, and it reaches a state that satisfies the invariant again: on the pole, not both won and lost, slipping exactly when a key is asked for, a slip timer of at least 1 while slipping, timers in range, score matching height, coconuts spaced and on the screen |
| Invariants.StepCoconuts | slippery_pole_game.py:238-263 | from a reachable running state, the coconuts a tick leaves are exactly the spawned coconuts, one tick lower, that are neither in the climber's box at the height the climb and slip phases left it nor off the screen; at most one coconut hits, and one does exactly when a fallen coconut lies in that box |
| Invariants.KeyDownInv | slippery_pole_game.py:174-189 | a key press keeps the invariant |
| Invariants.HandleEventsInv | slippery_pole_game.py:168-189 | any sequence of key presses keeps the invariant |
| Invariants.FrameInv | slippery_pole_game.py:338-341 | a whole frame from a reachable state never fails and keeps the invariant |
| Invariants.Play | slippery_pole_game.py:338-343 | playing a session from a reachable state computes exactly the state the frames produce, never fails, and ends on the pole with a score between 0 and 84 and a key asked for exactly while slipping |
| Scenarios.QuietStep | slippery_pole_game.py:191-263 | with no coconuts, a failed spawn roll, and the climber still on the pole after the climb and slip phases, the tick succeeds, adds no coconut, keeps the game running, and leaves the climber and the slip state as those phases set them |
| Scenarios.SlipOnFirstTickLoses | slippery_pole_game.py:208-280 | a new game whose first tick brings a slip while up is not held is lost on that tick, with the climber at the lowest position |
| Scenarios.ClimbRun | slippery_pole_game.py:197-199 | with calm draws and no coconuts, n ticks of climbing raise the climber by twice n pixels, keep the game running, bring no slip and spawn no coconut |
| Scenarios.WinningTick | slippery_pole_game.py:270-283 | the tick that takes a climber past the top wins, puts the climber at the top with score 84, and asks for the win sound |
| Scenarios.CleanWin | slippery_pole_game.py:191-283 | with calm draws and up held from the start, the game is still running after 210 ticks and won with score 84 after 211 |
| Scenarios.Slid | slippery_pole_game.py:219-225 | a slip slides at least one and at most five pixels per tick |
| Scenarios.SlidInGrace | slippery_pole_game.py:219-225 | within the first 60 slip ticks, a slip slides one pixel per tick |
| Scenarios.SlidPastGrace | slippery_pole_game.py:219-225 | over n slip ticks from a timer t that cross the 60th, a slip slides n pixels plus four for every tick past the 60th |
| Scenarios.SlipRun | slippery_pole_game.py:197-236 | a slip that starts on the first tick from a climber who is not slipping, unanswered and with no coconuts, within the recovery period: the climber keeps slipping with the drawn key, the timer counts up once per tick from where it was, and the climber slides by the accumulated slide distance from where the first tick's climb left it |
| Scenarios.TimeoutRecovery | slippery_pole_game.py:197-236 | a slip that starts on the first tick from a zero timer and is never answered ends on its 91st tick with the timer at 0 and no key asked for; the climber ends 215 pixels lower, or 213 when up is held, because the first tick climbs before it slips |
| Scenarios.LeftoverTimerEndsSlip | slippery_pole_game.py:208-236 | a slip that starts while a leftover timer reads 90 ends on the tick it starts, 5 pixels lower, with the timer at 0 |
| Scenarios.CoconutMiss | slippery_pole_game.py:247-263 | a coconut outside the climber's column never moves the climber, and leaves the list once it falls below the screen |

## Left out

- Window, drawing, fonts and the win/lose overlay are not modelled. They read the state and never change it.
- Asset loading and placeholder sound synthesis are not modelled. This covers `load_assets`, `create_placeholder_sound`, and the helper scripts `create_sounds.py` and `debug_audio.py`. A sound is modelled as a requested cue, whether or not an asset exists to play it.
- A sound's failure to play is not modelled, because the game ignores it.
- The QUIT event and process exit are not modelled. Nothing of the game state survives them.
- The frame-rate limiter (the clock tick at 60 per second) is not modelled. A tick is one step of the model.
- The random number generator is replaced by explicit draws. The model does not restrict the draws, so every proved property holds for every sequence of random outcomes.
- The constants POLE_WIDTH, COCONUT_SIZE and GRAVITY are not modelled, because the update never reads them. POLE_WIDTH and COCONUT_SIZE are only used for drawing.
- The climber's x is the constant `Config.CLIMBER_X`. The update recomputes it to the same value on every tick.
- World.ScoreOf: double-precision arithmetic itself is not modelled. Its effect over the pole's range is modelled instead: the three heights where rounding costs a point.
- Coconuts.Sweep: removal is positional, and the game removes the first equal coordinate pair. The two differ only when two live coconuts share coordinates. `Invariants.StepInv` rules that out for reachable states.
- Simulation.HandleEvents: states only what a finished game without R, or a running game without A or D, does with the events. For the general case it relies on `Simulation.KeyDown`'s contract, applied event by event.
- Simulation.Frame: states only that a finished game without R pressed is left as it is. For a running game it relies on the contracts of `Simulation.HandleEvents` and `Simulation.Step`, and `Invariants.FrameInv` states that it keeps the invariant.
- Simulation.Replay: its contract states only the finished-game case. That the frames run in order, and that the first fault ends the session, is stated by `Simulation.ReplayAppend`.

=== FILE: coconuts.dfy ===
/**
  Coconut management for one tick: the spawn timer, the fall of every coconut,
  the collision test against the climber's box and the removal of coconuts that
  left the screen.
 */
module Coconuts {
  import opened Config
  import opened Outcomes
  import opened World

  /** The coconut list and spawn timer after the spawn phase. */
  datatype Spawned = Spawned(coconuts: seq<Coconut>, timer: int)

  /** What the coconut loop leaves behind: survivors, the climber's y, and how many coconuts hit. */
  datatype Swept = Swept(kept: seq<Coconut>, climberY: int, hits: nat)

  /** The list operation that removes a coconut fails when it is no longer there. */
  datatype Fault = RemovedTwice(coconut: Coconut)

  /**
    Advance the spawn timer; when it reaches the spawn period it restarts at 0
    and, if the roll succeeds, one coconut is appended at the top of the screen.
   */
  function Spawn(cs: seq<Coconut>, timer: int, roll: Roll, x: SpawnX): (r: Spawned)
    ensures timer >= -1 ==> 0 <= r.timer < COCONUT_SPAWN_RATE
    ensures timer + 1 < COCONUT_SPAWN_RATE ==> r == Spawned(cs, timer + 1)
    ensures timer + 1 >= COCONUT_SPAWN_RATE ==> r.timer == 0
    ensures |cs| <= |r.coconuts| <= |cs| + 1 && r.coconuts[..|cs|] == cs
    ensures |r.coconuts| == |cs| + 1 <==> timer + 1 >= COCONUT_SPAWN_RATE && roll < SPAWN_CHANCE
    ensures |r.coconuts| == |cs| + 1 ==> r.coconuts[|cs|] == Coconut(x, 0) && r.timer == 0
  {
    var t := timer + 1;
    if t >= COCONUT_SPAWN_RATE then
      if roll < SPAWN_CHANCE then Spawned(cs + [Coconut(x, 0)], 0) else Spawned(cs, 0)
    else
      Spawned(cs, t)
  }

  /** One tick of fall for one coconut. */
  function Drop(c: Coconut): Coconut {
    Coconut(c.x, c.y + COCONUT_SPEED)
  }

  /** Every coconut moved down by one tick of fall, in the same order. */
  function Dropped(cs: seq<Coconut>): (ds: seq<Coconut>)
    ensures |ds| == |cs|
    ensures forall i :: 0 <= i < |cs| ==> ds[i] == Coconut(cs[i].x, cs[i].y + COCONUT_SPEED)
  {
    if |cs| == 0 then [] else [Drop(cs[0])] + Dropped(cs[1..])
  }

  /** x lies strictly between the climber's left and right edges. */
  predicate InColumn(x: int) {
    CLIMBER_X < x < CLIMBER_X + CLIMBER_WIDTH
  }

  /** The coconut lies strictly inside the climber's box when the climber is at y = cy. */
  predicate Hits(c: Coconut, cy: int) {
    InColumn(c.x) && cy < c.y < cy + CLIMBER_HEIGHT
  }

  predicate OffScreen(c: Coconut) {
    c.y > SCREEN_HEIGHT
  }

  /** xs can be obtained from ys by deleting elements. */
  ghost predicate Subsequence(xs: seq<Coconut>, ys: seq<Coconut>)
    decreases |ys|
  {
    |xs| == 0 ||
    (|ys| > 0 && ((xs[0] == ys[0] && Subsequence(xs[1..], ys[1..])) || Subsequence(xs, ys[1..])))
  }

  /**
    The coconut loop, in list order. Each coconut falls, then is compared with
    the climber's box at the climber's CURRENT y (an earlier hit in the same
    loop has already pushed the climber down), then is removed if it left the
    screen. A coconut that hits and has also left the screen would be removed
    twice, which fails.
   */
  function Sweep(cs: seq<Coconut>, cy: int): (r: Result<Swept, Fault>)
    ensures r.Ok? ==> r.value.climberY == cy + HIT_PENALTY * r.value.hits
    ensures r.Ok? ==> r.value.hits + |r.value.kept| <= |cs|
    decreases |cs|
  {
    if |cs| == 0 then Ok(Swept([], cy, 0))
    else
      var c := Drop(cs[0]);
      var hit := Hits(c, cy);
      if hit && OffScreen(c) then Err(RemovedTwice(c))
      else
        match Sweep(cs[1..], if hit then cy + HIT_PENALTY else cy)
        case Err(e) => Err(e)
        case Ok(rest) =>
          Ok(Swept(if hit || OffScreen(c) then rest.kept else [c] + rest.kept,
                   rest.climberY,
                   if hit then rest.hits + 1 else rest.hits))
  }

  /**
    The loop keeps the order of the coconuts, removes only coconuts that hit or
    left the screen, and fails only on a coconut in the climber's column that
    is also off the screen.
   */
  lemma {:induction false} SweepSurvivors(cs: seq<Coconut>, cy: int)
    ensures var r := Sweep(cs, cy);
      && (r.Ok? ==> Subsequence(r.value.kept, Dropped(cs)))
      && (r.Ok? ==> forall c :: c in r.value.kept ==> !OffScreen(c))
      && (r.Ok? ==> forall c :: c in Dropped(cs) && !InColumn(c.x) && !OffScreen(c) ==> c in r.value.kept)
      && (r.Err? ==> exists c :: c in Dropped(cs) && InColumn(c.x) && OffScreen(c))
    decreases |cs|
  {
    if |cs| > 0 {
      var c := Drop(cs[0]);
      var ds := Dropped(cs);
      assert ds[0] == c && ds[1..] == Dropped(cs[1..]);
      SweepSurvivors(cs[1..], if Hits(c, cy) then cy + HIT_PENALTY else cy);
    }
  }

  /** Reference filter: the coconuts that are neither inside the box at cy nor off the screen. */
  function Remaining(ds: seq<Coconut>, cy: int): (r: seq<Coconut>)
    ensures |r| <= |ds|
  {
    if |ds| == 0 then []
    else (if Hits(ds[0], cy) || OffScreen(ds[0]) then [] else [ds[0]]) + Remaining(ds[1..], cy)
  }

  /** The filter keeps exactly the coconuts outside the box that are still on the screen. */
  lemma {:induction false} RemainingMembers(ds: seq<Coconut>, cy: int)
    ensures forall c :: c in Remaining(ds, cy) <==> c in ds && !Hits(c, cy) && !OffScreen(c)
    decreases |ds|
  {
    if |ds| > 0 {
      RemainingMembers(ds[1..], cy);
      assert ds == [ds[0]] + ds[1..];
    }
  }

  /** Older coconuts first, each at least one spawn period of fall below the next. */
  ghost predicate Spaced(cs: seq<Coconut>) {
    forall i, j :: 0 <= i < j < |cs| ==> cs[j].y + SPAWN_GAP <= cs[i].y
  }

  /** When no coconut reaches the climber's box, the loop is a plain filter and the climber stays put. */
  lemma {:induction false} SweepClear(cs: seq<Coconut>, cy: int)
    requires forall c :: c in Dropped(cs) ==> !Hits(c, cy)
    ensures Sweep(cs, cy) == Ok(Swept(Remaining(Dropped(cs), cy), cy, 0))
    decreases |cs|
  {
    if |cs| > 0 {
      var c := Drop(cs[0]);
      var ds := Dropped(cs);
      var dt := Dropped(cs[1..]);
      assert ds[0] == c && ds[1..] == dt;
      assert !Hits(c, cy);
      SweepClear(cs[1..], cy);
      var kept := Remaining(dt, cy);
      if OffScreen(c) {
        assert Remaining(ds, cy) == [] + kept == kept;
        assert Sweep(cs, cy) == Ok(Swept(kept, cy, 0));
      } else {
        assert Remaining(ds, cy) == [c] + kept;
        assert Sweep(cs, cy) == Ok(Swept([c] + kept, cy, 0));
      }
    }
  }

  /** The filter only looks at the box, so two climber positions that catch nothing filter alike. */
  lemma {:induction false} RemainingSame(ds: seq<Coconut>, cy1: int, cy2: int)
    requires forall c :: c in ds ==> !Hits(c, cy1) && !Hits(c, cy2)
    ensures Remaining(ds, cy1) == Remaining(ds, cy2)
    decreases |ds|
  {
    if |ds| > 0 {
      RemainingSame(ds[1..], cy1, cy2);
    }
  }

  lemma SpacedDropped(cs: seq<Coconut>)
    requires Spaced(cs)
    ensures Spaced(Dropped(cs))
  {
  }

  /** Filtering keeps the spacing: every survivor keeps its place relative to the others. */
  lemma {:induction false} SpacedRemaining(ds: seq<Coconut>, cy: int)
    requires Spaced(ds)
    ensures Spaced(Remaining(ds, cy))
    decreases |ds|
  {
    if |ds| > 0 {
      var tail := ds[1..];
      assert Spaced(tail);
      SpacedRemaining(tail, cy);
      RemainingMembers(tail, cy);
      var rt := Remaining(tail, cy);
      forall j | 0 <= j < |rt|
        ensures rt[j].y + SPAWN_GAP <= ds[0].y
      {
        assert rt[j] in tail;
        var k :| 0 <= k < |tail| && tail[k] == rt[j];
        assert ds[k + 1] == rt[j];
      }
    }
  }

  /** A fresh coconut may join the tail of the list when all the others are a spawn period lower. */
  lemma SpacedAppend(cs: seq<Coconut>, n: Coconut)
    requires Spaced(cs)
    requires forall c :: c in cs ==> n.y + SPAWN_GAP <= c.y
    ensures Spaced(cs + [n])
  {
    var r := cs + [n];
    forall i, j | 0 <= i < j < |r|
      ensures r[j].y + SPAWN_GAP <= r[i].y
    {
      if j == |cs| {
        assert r[i] in cs;
      }
    }
  }

  /** Below a coconut that hits, the rest of a well-spaced list is far above the climber's box. */
  lemma SpacedBelowHit(cs: seq<Coconut>, cy: int)
    requires Spaced(cs) && |cs| > 0
    requires Hits(Drop(cs[0]), cy)
    ensures forall d :: d in Dropped(cs[1..]) ==> !Hits(d, cy) && !Hits(d, cy + HIT_PENALTY)
  {
    var tail := cs[1..];
    var dt := Dropped(tail);
    forall d | d in dt
      ensures !Hits(d, cy) && !Hits(d, cy + HIT_PENALTY)
    {
      var k :| 0 <= k < |tail| && dt[k] == d;
      assert cs[k + 1].y + SPAWN_GAP <= cs[0].y;
    }
  }

  /** A hit on the first coconut removes it and pushes the climber down before the rest of the loop. */
  lemma SweepHead(cs: seq<Coconut>, cy: int)
    requires |cs| > 0 && Hits(Drop(cs[0]), cy) && !OffScreen(Drop(cs[0]))
    requires Sweep(cs[1..], cy + HIT_PENALTY).Ok?
    ensures var rest := Sweep(cs[1..], cy + HIT_PENALTY).value;
      Sweep(cs, cy) == Ok(Swept(rest.kept, rest.climberY, rest.hits + 1))
  {
  }

  /** The filter drops a first coconut that is inside the box. */
  lemma RemainingHead(ds: seq<Coconut>, cy: int)
    requires |ds| > 0 && Hits(ds[0], cy)
    ensures Remaining(ds, cy) == Remaining(ds[1..], cy)
  {
    assert Remaining(ds, cy) == [] + Remaining(ds[1..], cy);
  }

  /** After a hit on the oldest coconut, the loop runs over the rest with the climber pushed down and nothing else hits. */
  lemma HitFirstLoop(cs: seq<Coconut>, cy: int)
    requires |cs| > 0
    requires cy <= SCREEN_HEIGHT - CLIMBER_HEIGHT
    requires Hits(Drop(cs[0]), cy)
    requires forall d :: d in Dropped(cs[1..]) ==> !Hits(d, cy + HIT_PENALTY)
    ensures Sweep(cs, cy) == Ok(Swept(Remaining(Dropped(cs[1..]), cy + HIT_PENALTY), cy + HIT_PENALTY, 1))
  {
    SweepClear(cs[1..], cy + HIT_PENALTY);
    SweepHead(cs, cy);
  }

  /** The filter at the old y drops the coconut that hit and agrees on the rest with the filter at the new y. */
  lemma HitFirstFilter(cs: seq<Coconut>, cy: int)
    requires |cs| > 0
    requires Hits(Drop(cs[0]), cy)
    requires forall d :: d in Dropped(cs[1..]) ==> !Hits(d, cy) && !Hits(d, cy + HIT_PENALTY)
    ensures Remaining(Dropped(cs), cy) == Remaining(Dropped(cs[1..]), cy + HIT_PENALTY)
  {
    var ds := Dropped(cs);
    var dt := Dropped(cs[1..]);
    assert ds[0] == Drop(cs[0]) && ds[1..] == dt;
    RemainingSame(dt, cy, cy + HIT_PENALTY);
    RemainingHead(ds, cy);
  }

  /** When the oldest coconut hits, it is the only one that does. */
  lemma SweepHitFirst(cs: seq<Coconut>, cy: int)
    requires Spaced(cs) && |cs| > 0
    requires cy <= SCREEN_HEIGHT - CLIMBER_HEIGHT
    requires Hits(Drop(cs[0]), cy)
    ensures Sweep(cs, cy) == Ok(Swept(Remaining(Dropped(cs), cy), cy + HIT_PENALTY, 1))
  {
    SpacedBelowHit(cs, cy);
    HitFirstLoop(cs, cy);
    HitFirstFilter(cs, cy);
  }

  /**
    On a well-spaced list and a climber no lower than the screen allows, at most
    one coconut can hit, nothing is removed twice, and the survivors are exactly
    the coconuts outside the climber's box at the y it had when the loop began.
   */
  lemma {:induction false} SweepSpaced(cs: seq<Coconut>, cy: int)
    requires Spaced(cs)
    requires cy <= SCREEN_HEIGHT - CLIMBER_HEIGHT
    ensures Sweep(cs, cy).Ok?
    ensures Sweep(cs, cy).value.kept == Remaining(Dropped(cs), cy)
    ensures Sweep(cs, cy).value.hits <= 1
    ensures Sweep(cs, cy).value.hits == 1 <==> exists c :: c in Dropped(cs) && Hits(c, cy)
    decreases |cs|
  {
    if |cs| > 0 {
      var c := Drop(cs[0]);
      var tail := cs[1..];
      var ds := Dropped(cs);
      var dt := Dropped(tail);
      assert ds[0] == c && ds[1..] == dt;
      assert ds == [c] + dt;
      assert Spaced(tail);
      if Hits(c, cy) {
        SweepHitFirst(cs, cy);
        assert c in ds;
      } else {
        SweepSpaced(tail, cy);
        var rest := Sweep(tail, cy).value;
        var kept := Remaining(dt, cy);
        if OffScreen(c) {
          assert Remaining(ds, cy) == [] + kept == kept;
          assert Sweep(cs, cy) == Ok(Swept(kept, rest.climberY, rest.hits));
        } else {
          assert Remaining(ds, cy) == [c] + kept;
          assert Sweep(cs, cy) == Ok(Swept([c] + kept, rest.climberY, rest.hits));
        }
      }
    }
  }
}

=== FILE: config.dfy ===
/**
  Constants of the pole-climbing game: screen and sprite geometry, speeds in
  pixels per tick, the coconut spawn period, and the fixed thresholds that
  govern slipping and sound sampling. Names follow the game's own constants.
 */
module Config {

  const SCREEN_WIDTH := 800
  const SCREEN_HEIGHT := 600
  const CLIMBER_WIDTH := 60
  const CLIMBER_HEIGHT := 80
  const CLIMB_SPEED := 2
  const SLIP_SPEED := 1
  const FALL_SPEED := 4
  const COCONUT_SPEED := 3
  /** Ticks between two coconut spawn opportunities. */
  const COCONUT_SPAWN_RATE := 60

  /** Pole geometry, fixed when a game starts. */
  const POLE_TOP := 50
  const POLE_BOTTOM := SCREEN_HEIGHT - 50
  const POLE_HEIGHT := POLE_BOTTOM - POLE_TOP

  /** The climber is always centred on the pole, so its left edge never moves. */
  const CLIMBER_X := SCREEN_WIDTH / 2 - CLIMBER_WIDTH / 2
  /** Where a new game places the climber. */
  const START_Y := SCREEN_HEIGHT - CLIMBER_HEIGHT - 50
  /** The largest y the clamp allows: the climber's feet at the pole bottom. */
  const LOWEST_Y := POLE_BOTTOM - CLIMBER_HEIGHT

  /** Slip ticks after which the climber also falls, and after which the slip ends. */
  const GRACE_TICKS := 60
  const RECOVER_TICKS := 90
  /** Extra fall caused by one coconut hit. */
  const HIT_PENALTY := FALL_SPEED * 5

  /** Per-tick probabilities, compared against a uniform draw in [0, 1). */
  const SLIP_CHANCE: real := 0.01
  const SPAWN_CHANCE: real := 0.5
  const CLIMB_CUE_CHANCE: real := 0.05
  const FALL_CUE_CHANCE: real := 0.1

  /** Vertical distance a coconut covers in one spawn period. */
  const SPAWN_GAP := COCONUT_SPAWN_RATE * COCONUT_SPEED
}

=== FILE: invariants.dfy ===
/**
  The invariant every reachable game state satisfies, its preservation by the
  tick, by key presses and by whole frames, and a session runner that keeps it.
 */
module Invariants {
  import opened Config
  import opened Outcomes
  import opened World
  import opened Coconuts
  import opened Simulation

  /**
    Coconuts of a reachable state: on screen, spawned within the screen width,
    well spaced, and each at least as low as a coconut spawned when the current
    spawn period began.
   */
  ghost predicate CoconutsOk(cs: seq<Coconut>, timer: int) {
    && Spaced(cs)
    && forall c :: c in cs ==> 0 <= c.x <= SCREEN_WIDTH && COCONUT_SPEED * (timer + 1) <= c.y <= SCREEN_HEIGHT
  }

  ghost predicate Inv(s: State) {
    && POLE_TOP <= s.climberY <= LOWEST_Y
    && !(s.gameOver && s.win)
    && (s.slipping <==> s.keyNeeded.Some?)
    && 0 <= s.slipTimer <= RECOVER_TICKS
    && (s.slipping ==> s.slipTimer >= 1)
    && 0 <= s.coconutTimer < COCONUT_SPAWN_RATE
    && s.score == ScoreOf(s.climberY)
    && CoconutsOk(s.coconuts, s.coconutTimer)
  }

  lemma ResetInv()
    ensures Inv(Reset())
  {
  }

  /** Coconuts spawned within the screen width and no higher than a fall of `ticks` spawn-clock ticks. */
  ghost predicate FallenAtLeast(cs: seq<Coconut>, ticks: int) {
    forall c :: c in cs ==> 0 <= c.x <= SCREEN_WIDTH && COCONUT_SPEED * ticks <= c.y
  }

  /** The spawn phase keeps the list well spaced; a fresh coconut has fallen for as long as the new clock says. */
  lemma SpawnPhase(cs: seq<Coconut>, timer: int, roll: Roll, x: SpawnX)
    requires CoconutsOk(cs, timer) && 0 <= timer < COCONUT_SPAWN_RATE
    ensures Spaced(Spawn(cs, timer, roll, x).coconuts)
    ensures FallenAtLeast(Spawn(cs, timer, roll, x).coconuts, Spawn(cs, timer, roll, x).timer)
  {
    var sp := Spawn(cs, timer, roll, x);
    if |sp.coconuts| == |cs| + 1 {
      assert sp.coconuts == cs + [Coconut(x, 0)];
      SpacedAppend(cs, Coconut(x, 0));
    } else {
      assert sp.coconuts == cs;
    }
  }

  /** One tick of falling adds one tick to the bound. */
  lemma DroppedFallen(cs: seq<Coconut>, ticks: int)
    requires FallenAtLeast(cs, ticks)
    ensures FallenAtLeast(Dropped(cs), ticks + 1)
  {
    var ds := Dropped(cs);
    forall c | c in ds
      ensures 0 <= c.x <= SCREEN_WIDTH && COCONUT_SPEED * (ticks + 1) <= c.y
    {
      var k :| 0 <= k < |ds| && ds[k] == c;
      assert cs[k] in cs;
    }
  }

  /**
    The spawn phase followed by the coconut loop keeps the coconuts well formed,
    and never removes a coconut twice while the climber is on the pole.
   */
  lemma CoconutPhase(cs: seq<Coconut>, timer: int, roll: Roll, x: SpawnX, cy: int)
    requires CoconutsOk(cs, timer) && 0 <= timer < COCONUT_SPAWN_RATE
    requires cy <= SCREEN_HEIGHT - CLIMBER_HEIGHT
    ensures Sweep(Spawn(cs, timer, roll, x).coconuts, cy).Ok?
    ensures CoconutsOk(Sweep(Spawn(cs, timer, roll, x).coconuts, cy).value.kept, Spawn(cs, timer, roll, x).timer)
  {
    var sp := Spawn(cs, timer, roll, x);
    SpawnPhase(cs, timer, roll, x);
    SweepSpaced(sp.coconuts, cy);
    var ds := Dropped(sp.coconuts);
    assert Spaced(Remaining(ds, cy)) by {
      SpacedDropped(sp.coconuts);
      SpacedRemaining(ds, cy);
    }
    assert FallenAtLeast(ds, sp.timer + 1) by {
      DroppedFallen(sp.coconuts, sp.timer);
    }
    RemainingMembers(ds, cy);
  }

  /** From a reachable state a tick never faults and reaches a reachable state. */
  lemma StepInv(s: State, up: bool, d: Draws)
    requires Inv(s)
    ensures Step(s, up, d).Ok?
    ensures Inv(Step(s, up, d).value.state)
  {
    if !s.Terminal() {
      var moved := Move(s, up, d);
      CoconutPhase(moved.coconuts, moved.coconutTimer, d.spawnRoll, d.spawnX, moved.climberY);
      var m := Physics(s, up, d).value;
      assert m.state.coconuts == Sweep(Spawn(moved.coconuts, moved.coconutTimer, d.spawnRoll, d.spawnX).coconuts, moved.climberY).value.kept;
    }
  }

  /**
    From a reachable running state, the coconuts a tick leaves are exactly the
    spawned coconuts, one tick lower, that are neither in the climber's box
    (where the climbing and slipping phases put it) nor off the screen; at most
    one coconut hits, and one does exactly when a fallen coconut lies in that box.
   */
  lemma StepCoconuts(s: State, up: bool, d: Draws)
    requires Inv(s) && !s.Terminal()
    ensures var m := Move(s, up, d);
      var ds := Dropped(Spawn(m.coconuts, m.coconutTimer, d.spawnRoll, d.spawnX).coconuts);
      && Physics(s, up, d).Ok? && Step(s, up, d).Ok?
      && Step(s, up, d).value.state.coconuts == Remaining(ds, m.climberY)
      && Physics(s, up, d).value.hits <= 1
      && (Physics(s, up, d).value.hits == 1 <==> exists c :: c in ds && Hits(c, m.climberY))
  {
    var m := Move(s, up, d);
    var sp := Spawn(m.coconuts, m.coconutTimer, d.spawnRoll, d.spawnX);
    SpawnPhase(m.coconuts, m.coconutTimer, d.spawnRoll, d.spawnX);
    SweepSpaced(sp.coconuts, m.climberY);
    var w := Sweep(sp.coconuts, m.climberY).value;
    assert Physics(s, up, d).value.hits == w.hits;
    assert Physics(s, up, d).value.state.coconuts == w.kept;
  }

  lemma KeyDownInv(s: State, k: Key)
    requires Inv(s)
    ensures Inv(KeyDown(s, k).state)
  {
  }

  lemma {:induction false} HandleEventsInv(s: State, keys: seq<Key>)
    requires Inv(s)
    ensures Inv(HandleEvents(s, keys).state)
    decreases |keys|
  {
    if |keys| > 0 {
      KeyDownInv(s, keys[0]);
      HandleEventsInv(KeyDown(s, keys[0]).state, keys[1..]);
    }
  }

  lemma FrameInv(s: State, keys: seq<Key>, up: bool, d: Draws)
    requires Inv(s)
    ensures Frame(s, keys, up, d).Ok?
    ensures Inv(Frame(s, keys, up, d).value.state)
  {
    HandleEventsInv(s, keys);
    StepInv(HandleEvents(s, keys).state, up, d);
  }

  /**
    Plays a session from a reachable state, frame by frame, as the game loop
    does: every frame succeeds, the final state is the one the frames produce,
    and the climber is on the pole with a score between 0 and 84.
   */
  method Play(s0: State, inputs: seq<Input>) returns (s: State)
    requires Inv(s0)
    ensures Replay(s0, inputs) == Ok(s)
    ensures POLE_TOP <= s.climberY <= LOWEST_Y && 0 <= s.score <= 84
    ensures s.slipping <==> s.keyNeeded.Some?
  {
    s := s0;
    var i := 0;
    while i < |inputs|
      invariant 0 <= i <= |inputs|
      invariant Inv(s)
      invariant Replay(s0, inputs) == Replay(s, inputs[i..])
    {
      var input := inputs[i];
      FrameInv(s, input.keys, input.up, input.draws);
      var r := Frame(s, input.keys, input.up, input.draws);
      assert inputs[i..][1..] == inputs[i + 1..];
      s := r.value.state;
      i := i + 1;
    }
    assert inputs[i..] == [];
    ScoreRange(s.climberY);
  }
}

=== FILE: outcomes.dfy ===
/** Optional values and fallible results. */
module Outcomes {

  datatype Option<+T> = None | Some(value: T)

  datatype Result<+T, +E> = Ok(value: T) | Err(error: E)
}

=== FILE: scenarios.dfy ===
/**
  Multi-tick and edge-case behaviour of the game, derived from the tick and key
  handling: a slip on the very first tick of a new game, with up not held,
  loses; climbing without incidents wins after 211 ticks with a score of 84; an
  unanswered slip that starts from a zero timer ends by itself after 91 ticks;
  and a slip answered by hand leaves its timer behind, so that a timer left at
  90 ends the next slip on the tick it starts.
 */
module Scenarios {
  import opened Config
  import opened Outcomes
  import opened World
  import opened Coconuts
  import opened Simulation

  /** Draws under which nothing happens by chance: no slip and no coconut. */
  predicate Calm(d: Draws) {
    d.slipRoll >= SLIP_CHANCE && d.spawnRoll >= SPAWN_CHANCE
  }

  /** n ticks with the same up key state and the same draws. */
  function Ticks(s: State, up: bool, d: Draws, n: nat): Result<State, Fault>
    decreases n
  {
    if n == 0 then Ok(s)
    else
      match Ticks(s, up, d, n - 1)
      case Err(e) => Err(e)
      case Ok(t) =>
        match Step(t, up, d)
        case Err(e) => Err(e)
        case Ok(r) => Ok(r.state)
  }

  /**
    With no coconut on screen and a failed spawn roll, a tick that keeps the
    climber on the pole is just the climbing and slipping phases: no coconut
    appears, the game goes on, and the climber and slip fields are as those
    phases leave them.
   */
  lemma QuietStep(s: State, up: bool, d: Draws)
    requires !s.Terminal() && s.coconuts == [] && d.spawnRoll >= SPAWN_CHANCE
    requires POLE_TOP <= Move(s, up, d).climberY <= LOWEST_Y
    ensures Step(s, up, d).Ok?
    ensures var t := Step(s, up, d).value.state; var m := Move(s, up, d);
      && !t.Terminal() && t.coconuts == [] && t.climberY == m.climberY
      && t.slipping == m.slipping && t.slipTimer == m.slipTimer && t.keyNeeded == m.keyNeeded
  {
    var m := Move(s, up, d);
    assert Spawn(m.coconuts, m.coconutTimer, d.spawnRoll, d.spawnX).coconuts == [];
    assert Sweep([], m.climberY) == Ok(Swept([], m.climberY, 0));
  }

  /**
    A new game in which the climber slips on the first tick without holding up
    is lost on that tick: the slide puts the climber below the lowest position.
    (Holding up, the climb comes first and the slide only brings the climber
    back to one pixel above the lowest position.)
   */
  lemma SlipOnFirstTickLoses(d: Draws)
    requires d.slipRoll < SLIP_CHANCE
    ensures Step(Reset(), false, d).Ok?
    ensures Step(Reset(), false, d).value.state.gameOver
    ensures !Step(Reset(), false, d).value.state.win
    ensures Step(Reset(), false, d).value.state.climberY == LOWEST_Y
  {
  }

  /** n climbing ticks cover one climb step more than n - 1 of them. */
  lemma ClimbedOneMore(n: nat)
    requires n > 0
    ensures CLIMB_SPEED * n == CLIMB_SPEED * (n - 1) + CLIMB_SPEED
  {
  }

  /** The run ended well with the climber free to climb, not slipping, no coconut in the air, at height y. */
  predicate Climbing(r: Result<State, Fault>, y: int)
  {
    r.Ok? && !r.value.Terminal() && !r.value.slipping && r.value.coconuts == [] && r.value.climberY == y
  }

  /** One more calm climbing tick after a run that left the climber free to climb. */
  lemma ClimbTick(s: State, d: Draws, n: nat, y: int)
    requires n > 0 && Calm(d)
    requires Climbing(Ticks(s, true, d, n - 1), y) && POLE_TOP <= y - CLIMB_SPEED <= LOWEST_Y
    ensures Climbing(Ticks(s, true, d, n), y - CLIMB_SPEED)
  {
    var t := Ticks(s, true, d, n - 1).value;
    QuietStep(t, true, d);
    assert Ticks(s, true, d, n) == Ok(Step(t, true, d).value.state);
  }

  /** Climbing with calm draws and no coconuts moves the climber up two pixels a tick. */
  lemma {:induction false} ClimbRun(s: State, d: Draws, n: nat)
    requires !s.Terminal() && !s.slipping && s.coconuts == []
    requires Calm(d)
    requires s.climberY <= LOWEST_Y
    requires s.climberY - CLIMB_SPEED * n >= POLE_TOP
    ensures Climbing(Ticks(s, true, d, n), s.climberY - CLIMB_SPEED * n)
    decreases n
  {
    if n > 0 {
      ClimbedOneMore(n);
      ClimbRun(s, d, n - 1);
      ClimbTick(s, d, n, s.climberY - CLIMB_SPEED * (n - 1));
    }
  }

  /** The tick that takes a climbing climber past the top of the pole wins, with a score of 84. */
  lemma WinningTick(s: State, d: Draws)
    requires !s.Terminal() && !s.slipping && s.coconuts == []
    requires Calm(d)
    requires s.climberY - CLIMB_SPEED < POLE_TOP
    ensures Step(s, true, d).Ok?
    ensures Step(s, true, d).value.state.win && !Step(s, true, d).value.state.gameOver
    ensures Step(s, true, d).value.state.climberY == POLE_TOP
    ensures Step(s, true, d).value.state.score == 84
    ensures WinCue in Step(s, true, d).value.cues
  {
    var m := Move(s, true, d);
    assert Spawn(m.coconuts, m.coconutTimer, d.spawnRoll, d.spawnX).coconuts == [];
    assert Sweep([], m.climberY) == Ok(Swept([], m.climberY, 0));
  }

  /** Without slips or coconuts, holding up from the start wins on tick 211, with a score of 84. */
  lemma CleanWin(d: Draws)
    requires Calm(d)
    ensures Ticks(Reset(), true, d, 210).Ok?
    ensures !Ticks(Reset(), true, d, 210).value.Terminal()
    ensures Ticks(Reset(), true, d, 211).Ok?
    ensures Ticks(Reset(), true, d, 211).value.win
    ensures Ticks(Reset(), true, d, 211).value.score == 84
  {
    ClimbRun(Reset(), d, 210);
    var t := Ticks(Reset(), true, d, 210).value;
    WinningTick(t, d);
  }

  /** Distance slid in n ticks of a slip whose timer starts at t: one pixel a tick, five once past the grace period. */
  function Slid(t: int, n: nat): (r: int)
    ensures SLIP_SPEED * n <= r <= (SLIP_SPEED + FALL_SPEED) * n
    decreases n
  {
    if n == 0 then 0
    else Slid(t, n - 1) + SLIP_SPEED + (if t + n > GRACE_TICKS then FALL_SPEED else 0)
  }

  /** Within the grace period a slip slides one pixel a tick. */
  lemma {:induction false} SlidInGrace(t: int, n: nat)
    requires t + n <= GRACE_TICKS
    ensures Slid(t, n) == SLIP_SPEED * n
    decreases n
  {
    if n > 0 {
      SlidInGrace(t, n - 1);
    }
  }

  /** A slip that crosses the grace period slides one pixel a tick, plus the fall speed for every tick past it. */
  lemma {:induction false} SlidPastGrace(t: int, n: nat)
    requires t <= GRACE_TICKS <= t + n
    ensures Slid(t, n) == n + FALL_SPEED * (t + n - GRACE_TICKS)
    decreases n
  {
    if t + n == GRACE_TICKS {
      SlidInGrace(t, n);
    } else {
      SlidPastGrace(t, n - 1);
    }
  }

  /** The run ended well with the climber slipping, key k asked for, the slip timer at timer, no coconut in the air, at height y. */
  predicate Sliding(r: Result<State, Fault>, k: BalanceKey, timer: int, y: int)
  {
    && r.Ok? && !r.value.Terminal() && r.value.slipping && r.value.keyNeeded == Some(k)
    && r.value.coconuts == [] && r.value.slipTimer == timer && r.value.climberY == y
  }

  /** One more unanswered slipping tick, within the recovery period, after a run that left the climber slipping. */
  lemma SlipTick(s: State, up: bool, d: Draws, n: nat, timer: int, y: int)
    requires n > 0 && d.spawnRoll >= SPAWN_CHANCE
    requires Sliding(Ticks(s, up, d, n - 1), d.key, timer, y) && timer < RECOVER_TICKS && POLE_TOP <= y
    requires y + SLIP_SPEED + (if timer + 1 > GRACE_TICKS then FALL_SPEED else 0) <= LOWEST_Y
    ensures Sliding(Ticks(s, up, d, n), d.key, timer + 1, y + SLIP_SPEED + (if timer + 1 > GRACE_TICKS then FALL_SPEED else 0))
  {
    var t := Ticks(s, up, d, n - 1).value;
    QuietStep(t, up, d);
    assert Ticks(s, up, d, n) == Ok(Step(t, up, d).value.state);
  }

  /**
    A slip that starts on the first of n ticks, from a climber who is not
    slipping and whose slip timer reads t, and is not answered, with no
    coconuts around: after n ticks within the recovery period the climber is
    still slipping with the drawn key, the timer reads t + n, and the climber
    has slid by Slid(t, n) from where the first tick's climb left it.
   */
  lemma {:induction false} SlipRun(s: State, up: bool, d: Draws, n: nat)
    requires !s.Terminal() && !s.slipping && s.coconuts == []
    requires d.slipRoll < SLIP_CHANCE && d.spawnRoll >= SPAWN_CHANCE
    requires 1 <= n && s.slipTimer + n <= RECOVER_TICKS
    requires POLE_TOP <= s.climberY - (if up then CLIMB_SPEED else 0)
    requires s.climberY - (if up then CLIMB_SPEED else 0) + Slid(s.slipTimer, n) <= LOWEST_Y
    ensures Sliding(Ticks(s, up, d, n), d.key, s.slipTimer + n,
                    s.climberY - (if up then CLIMB_SPEED else 0) + Slid(s.slipTimer, n))
    decreases n
  {
    if n == 1 {
      QuietStep(s, up, d);
      assert Ticks(s, up, d, 1) == Ok(Step(s, up, d).value.state);
    } else {
      SlipRun(s, up, d, n - 1);
      var y := s.climberY - (if up then CLIMB_SPEED else 0) + Slid(s.slipTimer, n - 1);
      var step := SLIP_SPEED + (if s.slipTimer + n > GRACE_TICKS then FALL_SPEED else 0);
      assert Slid(s.slipTimer, n) == Slid(s.slipTimer, n - 1) + step;
      SlipTick(s, up, d, n, s.slipTimer + (n - 1), y);
    }
  }

  /**
    A slip that starts on the first tick from a zero timer and is never
    answered ends by itself on the 91st tick, with the timer back at 0 and no
    key asked for. The climber ends 215 pixels lower, less the two pixels it
    climbed on the first tick when up is held, since the climb comes before
    the slip in a tick.
   */
  lemma TimeoutRecovery(s: State, up: bool, d: Draws)
    requires !s.Terminal() && !s.slipping && s.slipTimer == 0 && s.coconuts == []
    requires d.slipRoll < SLIP_CHANCE && d.spawnRoll >= SPAWN_CHANCE
    requires POLE_TOP <= s.climberY - (if up then CLIMB_SPEED else 0)
    requires s.climberY - (if up then CLIMB_SPEED else 0) + 215 <= LOWEST_Y
    ensures Ticks(s, up, d, 91).Ok?
    ensures var t := Ticks(s, up, d, 91).value;
      && !t.slipping && t.slipTimer == 0 && t.keyNeeded == None && !t.Terminal()
      && t.climberY == s.climberY - (if up then CLIMB_SPEED else 0) + 215
  {
    SlidPastGrace(0, 90);
    SlipRun(s, up, d, 90);
    var last := Ticks(s, up, d, 90).value;
    QuietStep(last, up, d);
  }

  /**
    Because neither the balance key nor slip onset resets the timer, a slip that
    starts while the timer still reads 90 ends on the same tick it starts,
    having slid five pixels.
   */
  lemma LeftoverTimerEndsSlip(s: State, d: Draws)
    requires !s.Terminal() && !s.slipping && s.slipTimer == RECOVER_TICKS
    requires d.slipRoll < SLIP_CHANCE
    requires s.coconuts == [] && d.spawnRoll >= SPAWN_CHANCE
    requires POLE_TOP <= s.climberY <= LOWEST_Y - 5
    ensures Step(s, false, d).Ok?
    ensures var t := Step(s, false, d).value;
      && !t.state.slipping && t.state.slipTimer == 0 && t.state.keyNeeded == None
      && t.state.climberY == s.climberY + SLIP_SPEED + FALL_SPEED
      && SlipCue in t.cues
  {
    QuietStep(s, false, d);
  }

  /** A coconut outside the climber's column falls past without touching the climber, and leaves the list once below the screen. */
  lemma CoconutMiss(c: Coconut, cy: int)
    requires !InColumn(c.x)
    ensures Sweep([c], cy).Ok?
    ensures Sweep([c], cy).value.climberY == cy && Sweep([c], cy).value.hits == 0
    ensures Sweep([c], cy).value.kept == if c.y + COCONUT_SPEED > SCREEN_HEIGHT then [] else [Drop(c)]
  {
  }
}

=== FILE: simulation.dfy ===
/**
  One tick of the game and the key presses that arrive between ticks. The tick
  runs its phases in a fixed order: climb, slip onset, slip drift, coconut
  spawn, coconut sweep, then the clamp that decides win or loss, then the
  score. Sounds are reported as cues; whether an audio asset exists to play a
  cue is not part of the model.
 */
module Simulation {
  import opened Config
  import opened Outcomes
  import opened World
  import opened Coconuts

  /** A key-down event; only A, D and R mean anything to the game. */
  datatype Key = KeyA | KeyD | KeyR | OtherKey

  /** Sounds the simulation asks for. Recovering from a slip replays the slip sound. */
  datatype Cue = ClimbCue | SlipCue | FallCue | HitCue | WinCue

  /** A state and the sounds requested while producing it. */
  datatype Tick = Tick(state: State, cues: seq<Cue>)

  /** A state after the motion phases, before the clamp, with its cues and the number of coconut hits. */
  datatype Motion = Motion(state: State, cues: seq<Cue>, hits: nat)

  /** Holding up moves a climber who is not slipping up by the climb speed. */
  function Climb(s: State, up: bool): (t: State)
    ensures up && !s.slipping ==> t.climberY == s.climberY - CLIMB_SPEED
    ensures !(up && !s.slipping) ==> t == s
    ensures t == s.(climberY := t.climberY)
  {
    if up && !s.slipping then s.(climberY := s.climberY - CLIMB_SPEED) else s
  }

  /** A climber who is not slipping starts to slip when the roll is under the slip chance. */
  function Onset(s: State, d: Draws): (t: State)
    ensures t.slipping <==> s.slipping || d.slipRoll < SLIP_CHANCE
    ensures !s.slipping && t.slipping ==> t.keyNeeded == Some(d.key)
    ensures t.slipTimer == s.slipTimer
    ensures s.slipping ==> t == s
    ensures !t.slipping ==> t == s
    ensures t == s.(slipping := t.slipping, keyNeeded := t.keyNeeded)
  {
    if !s.slipping && d.slipRoll < SLIP_CHANCE then
      s.(slipping := true, keyNeeded := Some(d.key))
    else s
  }

  /**
    While slipping, the slip timer advances and the climber slides down; past the
    grace period it also falls, and past the recovery period the slip ends and
    the timer restarts.
   */
  function Drift(s: State): (t: State)
    ensures !s.slipping ==> t == s
    ensures s.slipping ==> t.climberY == s.climberY + SLIP_SPEED + (if s.slipTimer + 1 > GRACE_TICKS then FALL_SPEED else 0)
    ensures s.slipping ==> (t.slipping <==> s.slipTimer + 1 <= RECOVER_TICKS)
    ensures t.slipping ==> t.slipTimer == s.slipTimer + 1 && t.keyNeeded == s.keyNeeded
    ensures s.slipping && !t.slipping ==> t.slipTimer == 0 && t.keyNeeded == None
    ensures t == s.(climberY := t.climberY, slipping := t.slipping, slipTimer := t.slipTimer, keyNeeded := t.keyNeeded)
  {
    if s.slipping then
      var timer := s.slipTimer + 1;
      var y := s.climberY + SLIP_SPEED;
      if timer > GRACE_TICKS then
        var y' := y + FALL_SPEED;
        if timer > RECOVER_TICKS then
          s.(climberY := y', slipping := false, keyNeeded := None, slipTimer := 0)
        else
          s.(climberY := y', slipTimer := timer)
      else
        s.(climberY := y, slipTimer := timer)
    else s
  }

  /** n copies of a cue. */
  function Repeat(cue: Cue, n: nat): (r: seq<Cue>)
    ensures |r| == n && forall i :: 0 <= i < n ==> r[i] == cue
    ensures multiset(r)[cue] == n
  {
    if n == 0 then [] else [cue] + Repeat(cue, n - 1)
  }

  /** The climber is slipping once the slip-onset phase has run. */
  predicate SlipsThisTick(s: State, d: Draws) {
    s.slipping || d.slipRoll < SLIP_CHANCE
  }

  /** Vertical displacement of one tick before the clamp, rule by rule. */
  function Displacement(s: State, up: bool, d: Draws, hits: nat): int {
    var climb := if up && !s.slipping then -CLIMB_SPEED else 0;
    var slide := if SlipsThisTick(s, d) then SLIP_SPEED else 0;
    var fall := if SlipsThisTick(s, d) && s.slipTimer + 1 > GRACE_TICKS then FALL_SPEED else 0;
    climb + slide + fall + HIT_PENALTY * hits
  }

  /** The slip timer a tick leaves behind. */
  function NextSlipTimer(s: State, d: Draws): int {
    if !SlipsThisTick(s, d) then s.slipTimer
    else if s.slipTimer + 1 > RECOVER_TICKS then 0
    else s.slipTimer + 1
  }

  /**
    The climbing and slipping phases of a tick: climb, slip onset, drift. The
    slip fields end as the slip rules say, and the climber moves by the climb,
    slide and fall contributions of this tick.
   */
  function Move(s: State, up: bool, d: Draws): (t: State)
    ensures t.climberY == s.climberY + Displacement(s, up, d, 0)
    ensures t.slipTimer == NextSlipTimer(s, d)
    ensures t.slipping <==> SlipsThisTick(s, d) && s.slipTimer + 1 <= RECOVER_TICKS
    ensures !s.slipping && t.slipping ==> t.keyNeeded == Some(d.key)
    ensures s.slipping && t.slipping ==> t.keyNeeded == s.keyNeeded
    ensures !t.slipping && SlipsThisTick(s, d) ==> t.keyNeeded == None
    ensures !SlipsThisTick(s, d) ==> t.keyNeeded == s.keyNeeded
    ensures t == s.(climberY := t.climberY, slipping := t.slipping, slipTimer := t.slipTimer, keyNeeded := t.keyNeeded)
  {
    Drift(Onset(Climb(s, up), d))
  }

  /** Sounds of the climbing and slipping phases, each sampled by its own draw. */
  function MoveCues(s: State, up: bool, d: Draws): (r: seq<Cue>)
    ensures ClimbCue in r <==> up && !s.slipping && d.climbRoll < CLIMB_CUE_CHANCE
    ensures SlipCue in r <==> !s.slipping && d.slipRoll < SLIP_CHANCE
    ensures FallCue in r <==> SlipsThisTick(s, d) && s.slipTimer + 1 > GRACE_TICKS && d.fallRoll < FALL_CUE_CHANCE
    ensures HitCue !in r && WinCue !in r
    ensures forall i, j :: 0 <= i < j < |r| ==> r[i] != r[j]
  {
    (if up && !s.slipping && d.climbRoll < CLIMB_CUE_CHANCE then [ClimbCue] else []) +
    (if !s.slipping && d.slipRoll < SLIP_CHANCE then [SlipCue] else []) +
    (if SlipsThisTick(s, d) && s.slipTimer + 1 > GRACE_TICKS && d.fallRoll < FALL_CUE_CHANCE then [FallCue] else [])
  }

  /** Everything one tick does before the clamp: climb, slip, spawn and the coconut loop. */
  function Physics(s: State, up: bool, d: Draws): (r: Result<Motion, Fault>)
    ensures r.Ok? ==> r.value.state.climberY == s.climberY + Displacement(s, up, d, r.value.hits)
    ensures r.Ok? ==> var m := Move(s, up, d);
      r.value.state.slipping == m.slipping && r.value.state.slipTimer == m.slipTimer && r.value.state.keyNeeded == m.keyNeeded
    ensures r.Ok? && s.coconutTimer >= -1 ==> 0 <= r.value.state.coconutTimer < COCONUT_SPAWN_RATE
    ensures r.Ok? ==> |r.value.state.coconuts| + r.value.hits <= |s.coconuts| + 1
    ensures r.Ok? ==> (HitCue in r.value.cues <==> r.value.hits > 0)
    ensures r.Ok? ==> multiset(r.value.cues)[HitCue] == r.value.hits
    ensures var m := Move(s, up, d); var sp := Spawn(m.coconuts, m.coconutTimer, d.spawnRoll, d.spawnX);
      && (r.Ok? <==> Sweep(sp.coconuts, m.climberY).Ok?)
      && (r.Ok? ==> var w := Sweep(sp.coconuts, m.climberY).value;
            r.value.state.coconutTimer == sp.timer && r.value.state.coconuts == w.kept && r.value.hits == w.hits)
    ensures r.Ok? ==> WinCue !in r.value.cues
    ensures r.Ok? ==> r.value.state.score == s.score && r.value.state.gameOver == s.gameOver && r.value.state.win == s.win
  {
    var moved := Move(s, up, d);
    var spawned := Spawn(moved.coconuts, moved.coconutTimer, d.spawnRoll, d.spawnX);
    match Sweep(spawned.coconuts, moved.climberY)
    case Err(e) => Err(e)
    case Ok(w) =>
      Ok(Motion(moved.(climberY := w.climberY, coconuts := w.kept, coconutTimer := spawned.timer),
                MoveCues(s, up, d) + Repeat(HitCue, w.hits),
                w.hits))
  }

  /** The clamp keeps the climber on the pole; y above the top is a win, y below the lowest position a loss. */
  function Settle(m: State): (t: State)
    ensures POLE_TOP <= t.climberY <= LOWEST_Y
    ensures POLE_TOP <= m.climberY <= LOWEST_Y ==> t.climberY == m.climberY
    ensures m.climberY < POLE_TOP ==> t.climberY == POLE_TOP
    ensures m.climberY > LOWEST_Y ==> t.climberY == LOWEST_Y
    ensures t.win == (m.win || m.climberY < POLE_TOP)
    ensures t.gameOver == (m.gameOver || (POLE_TOP <= m.climberY && m.climberY > LOWEST_Y))
    ensures t.score == ScoreOf(t.climberY)
    ensures t == m.(climberY := t.climberY, win := t.win, gameOver := t.gameOver, score := t.score)
  {
    var clamped :=
      if m.climberY < POLE_TOP then m.(climberY := POLE_TOP, win := true)
      else if m.climberY > LOWEST_Y then m.(climberY := LOWEST_Y, gameOver := true)
      else m;
    clamped.(score := ScoreOf(clamped.climberY))
  }

  /**
    One tick. A finished game is left exactly as it is. Otherwise the climber ends
    on the pole, wins exactly when the motion took it above the top, loses exactly
    when the motion took it below the lowest position, never both, and the score
    reflects the new height.
   */
  function Step(s: State, up: bool, d: Draws): (r: Result<Tick, Fault>)
    ensures s.Terminal() ==> r == Ok(Tick(s, []))
    ensures !s.Terminal() ==> (r.Ok? <==> Physics(s, up, d).Ok?)
    ensures !s.Terminal() && r.Ok? ==>
      var pre := Physics(s, up, d).value.state.climberY;
      var t := r.value.state;
      && POLE_TOP <= t.climberY <= LOWEST_Y
      && (t.win <==> pre < POLE_TOP)
      && (t.gameOver <==> pre > LOWEST_Y)
      && !(t.win && t.gameOver)
      && (POLE_TOP <= pre <= LOWEST_Y ==> t.climberY == pre)
      && (pre < POLE_TOP ==> t.climberY == POLE_TOP)
      && (pre > LOWEST_Y ==> t.climberY == LOWEST_Y)
      && t.score == ScoreOf(t.climberY)
      && (WinCue in r.value.cues <==> t.win)
    ensures !s.Terminal() && r.Ok? ==>
      var m := Physics(s, up, d).value.state;
      var t := r.value.state;
      && t.slipping == m.slipping && t.slipTimer == m.slipTimer && t.keyNeeded == m.keyNeeded
      && t.coconuts == m.coconuts && t.coconutTimer == m.coconutTimer
  {
    if s.Terminal() then Ok(Tick(s, []))
    else
      match Physics(s, up, d)
      case Err(e) => Err(e)
      case Ok(m) =>
        var t := Settle(m.state);
        assert !m.state.win && !m.state.gameOver;
        var cues := m.cues + (if t.win then [WinCue] else []);
        assert WinCue !in m.cues;
        assert WinCue in cues <==> t.win;
        Ok(Tick(t, cues))
  }

  /** The balance key a slip asks for has been pressed. */
  predicate Balances(needed: Option<BalanceKey>, k: Key) {
    (needed == Some(A) && k == KeyA) || (needed == Some(D) && k == KeyD)
  }

  /**
    One key-down event. In a finished game only R does anything, and it starts a
    new game. In a running game the matching balance key ends a slip; the slip
    timer is left as it was.
   */
  function KeyDown(s: State, k: Key): (r: Tick)
    ensures s.Terminal() && k == KeyR ==> r == Tick(Reset(), [])
    ensures s.Terminal() && k != KeyR ==> r == Tick(s, [])
    ensures !s.Terminal() ==> r.state == s.(slipping := r.state.slipping, keyNeeded := r.state.keyNeeded)
    ensures !s.Terminal() ==> (r.state.slipping <==> s.slipping && !Balances(s.keyNeeded, k))
    ensures !s.Terminal() && s.slipping && Balances(s.keyNeeded, k) ==> r.state.keyNeeded == None && r.cues == [SlipCue]
    ensures !(s.slipping && Balances(s.keyNeeded, k)) && !(s.Terminal() && k == KeyR) ==> r == Tick(s, [])
  {
    if s.Terminal() then
      if k == KeyR then Tick(Reset(), []) else Tick(s, [])
    else if s.slipping && Balances(s.keyNeeded, k) then
      Tick(s.(slipping := false, keyNeeded := None), [SlipCue])
    else Tick(s, [])
  }

  /** All key-down events of one frame, in arrival order. */
  function HandleEvents(s: State, keys: seq<Key>): (r: Tick)
    ensures s.Terminal() && KeyR !in keys ==> r == Tick(s, [])
    ensures !s.Terminal() && KeyA !in keys && KeyD !in keys ==> r == Tick(s, [])
    decreases |keys|
  {
    if |keys| == 0 then Tick(s, [])
    else
      var first := KeyDown(s, keys[0]);
      var rest := HandleEvents(first.state, keys[1..]);
      Tick(rest.state, first.cues + rest.cues)
  }

  /** One frame: the queued key-down events first, then one tick. */
  function Frame(s: State, keys: seq<Key>, up: bool, d: Draws): (r: Result<Tick, Fault>)
    ensures s.Terminal() && KeyR !in keys ==> r == Ok(Tick(s, []))
  {
    var h := HandleEvents(s, keys);
    match Step(h.state, up, d)
    case Err(e) => Err(e)
    case Ok(t) =>
      assert s.Terminal() && KeyR !in keys ==> h.cues + t.cues == [] + [] == [];
      Ok(Tick(t.state, h.cues + t.cues))
  }

  /** What one frame of play supplies: the key-down events, whether up is held, and the random draws. */
  datatype Input = Input(keys: seq<Key>, up: bool, draws: Draws)

  /**
    The frames of a session, one after another; the first fault ends the
    session. A finished game goes through any frames in which R is not pressed
    exactly as it is.
   */
  function Replay(s: State, inputs: seq<Input>): (r: Result<State, Fault>)
    ensures s.Terminal() && (forall i :: 0 <= i < |inputs| ==> KeyR !in inputs[i].keys) ==> r == Ok(s)
    decreases |inputs|
  {
    if |inputs| == 0 then Ok(s)
    else
      match Frame(s, inputs[0].keys, inputs[0].up, inputs[0].draws)
      case Err(e) => Err(e)
      case Ok(t) => Replay(t.state, inputs[1..])
  }

  /** Replaying two sessions back to back is replaying the first and then the second from where it ended. */
  lemma {:induction false} ReplayAppend(s: State, a: seq<Input>, b: seq<Input>)
    ensures Replay(s, a + b) == match Replay(s, a)
      case Err(e) => Err(e)
      case Ok(t) => Replay(t, b)
    decreases |a|
  {
    if |a| > 0 {
      assert (a + b)[0] == a[0] && (a + b)[1..] == a[1..] + b;
      match Frame(s, a[0].keys, a[0].up, a[0].draws)
      case Err(_) =>
      case Ok(t) => ReplayAppend(t.state, a[1..], b);
    } else {
      assert a + b == b;
    }
  }
}

=== FILE: world.dfy ===
/**
  The single game record, the draws that stand in for the random number
  generator, and the two things derived from the record alone: the initial
  state and the score.
 */
module World {
  import opened Config
  import opened Outcomes

  /** The two balance keys a slip can ask for. */
  datatype BalanceKey = A | D

  /** A coconut is a point; y grows downwards. */
  datatype Coconut = Coconut(x: int, y: int)

  datatype State = State(
    climberY: int,
    slipping: bool,
    slipTimer: int,
    keyNeeded: Option<BalanceKey>,
    coconuts: seq<Coconut>,
    coconutTimer: int,
    score: int,
    gameOver: bool,
    win: bool)
  {
    /** A lost or won game: the tick leaves it alone until a restart. */
    predicate Terminal() {
      gameOver || win
    }
  }

  /** A uniform draw from [0, 1). */
  type Roll = r: real | 0.0 <= r < 1.0

  /** A horizontal spawn position, both ends included. */
  type SpawnX = x: int | 0 <= x <= SCREEN_WIDTH

  /**
    Every random choice one tick can make, in the order the tick makes them:
    the climb-sound sample, the slip roll, the key a new slip asks for, the
    fall-sound sample, the spawn roll and the spawn position.
   */
  datatype Draws = Draws(
    climbRoll: Roll,
    slipRoll: Roll,
    key: BalanceKey,
    fallRoll: Roll,
    spawnRoll: Roll,
    spawnX: SpawnX)

  /** Division of a possibly negative numerator, truncating toward zero. */
  function TruncDiv(n: int, d: int): (q: int)
    requires d > 0
    ensures n >= 0 ==> q * d <= n < q * d + d
    ensures n < 0 ==> q * d - d < n <= q * d
  {
    if n >= 0 then n / d else -((-n) / d)
  }

  /**
    The climbed heights, in pixels, at which the game's double-precision
    quotient climbed / 500, multiplied by 100, comes out just below a whole
    number (for 290 it is 57.99999999999999), so the truncation loses one more
    point than the exact quotient would. No other height on the pole does so.
   */
  predicate RoundsDown(climbed: int) {
    climbed == 145 || climbed == 285 || climbed == 290
  }

  /**
    Height climbed, in whole percent of the pole height, as the game's
    floating-point formula truncates it: never above the exact percentage, and
    less than two points below it.
   */
  function ScoreOf(y: int): (r: int)
    ensures POLE_BOTTOM - y - CLIMBER_HEIGHT >= 0 ==>
      r * POLE_HEIGHT <= (POLE_BOTTOM - y - CLIMBER_HEIGHT) * 100 < (r + 2) * POLE_HEIGHT
  {
    var climbed := POLE_BOTTOM - y - CLIMBER_HEIGHT;
    TruncDiv(climbed * 100, POLE_HEIGHT) - (if RoundsDown(climbed) then 1 else 0)
  }

  /** A fresh game: climber at the foot of the pole, nothing falling, not slipping. */
  function Reset(): (s: State)
    ensures s.climberY == LOWEST_Y && s.score == ScoreOf(s.climberY) == 0
    ensures !s.slipping && s.keyNeeded == None && s.slipTimer == 0
    ensures s.coconuts == [] && s.coconutTimer == 0
    ensures !s.Terminal()
  {
    State(START_Y, false, 0, None, [], 0, 0, false, false)
  }

  /** On the pole the score is a percentage between 0 and 84. */
  lemma ScoreRange(y: int)
    requires POLE_TOP <= y <= LOWEST_Y
    ensures 0 <= ScoreOf(y) <= 84
    ensures ScoreOf(y) == 84 <==> y == POLE_TOP
    ensures ScoreOf(y) == 0 <==> y > LOWEST_Y - 5
  {
  }

  /** A higher climber never has a lower score. */
  lemma ScoreMonotone(y1: int, y2: int)
    requires y1 <= y2
    ensures ScoreOf(y2) <= ScoreOf(y1)
  {
    var n1 := (POLE_BOTTOM - y1 - CLIMBER_HEIGHT) * 100;
    var n2 := (POLE_BOTTOM - y2 - CLIMBER_HEIGHT) * 100;
    assert n2 <= n1;
  }

  /**
    Truncation makes the score flat over runs of pixels, so it is not strictly
    monotone; at y = 180 the rounding of the double leaves 57 where the exact
    percentage is 58.
   */
  lemma ScoreNotStrict()
    ensures ScoreOf(LOWEST_Y - 1) == ScoreOf(LOWEST_Y) == 0
    ensures ScoreOf(180) == ScoreOf(181) == 57
    ensures (POLE_BOTTOM - 180 - CLIMBER_HEIGHT) * 100 == 58 * POLE_HEIGHT
    ensures ScoreOf(POLE_TOP) == 84
  {
  }
}
